=== FILE: README.md ===
# NinjaConfig, modelled in Dafny

NinjaConfig is a configuration library for Fabric mods. A mod registers
configuration objects (subclasses of `ConfigBase`) with a `ConfigManager`
under a file name. The manager loads each object from a JSON file and saves it
back. A load does four things in order:

- it resets the object to its defaults;
- it merges the file in, field by field;
- it lets the object validate itself;
- it rewrites the file when the file was absent, incomplete or unreadable.

Files are written by `GsonNestedCommentCodec`. Each exposed field appears as
`{"value": ..., "comment": ...}`, and the comment comes from the field's
`@Comment` annotation. Every object carries a dirty flag, so `saveDirty` can
write only the objects that changed. `ExampleConfig` is the sample
configuration: a commented string, a commented integer kept in 1..100, and an
uncommented `ExampleObject`.

The project has eight modules, one per file:

| file | module | what it holds |
|---|---|---|
| `wrappers.dfy` | `Wrappers` | `Option` and `Result` |
| `json.dfy` | `Json` | Gson's element tree. An object keeps its members in insertion order. `Get` and `Put` are `JsonObject.get`/`has`/`add`. |
| `reflection.dfy` | `Reflection` | A declared field as reflection reports it, with its modifiers, `@Expose` and `@Comment`. |
| `config_base.dfy` | `ConfigBase` | The class `Config` with its dirty flag and its field values. What a subclass overrides (`resetDefaults`, `validate`, `copyFrom`, `afterLoad`, `beforeSave`) is a `Hooks` value. `Config`'s methods apply the hooks to the object in place. |
| `codec.dfy` | `GsonNestedCommentCodec` | `mergeInto` and `write` as methods with loops. Each is proved equal to a specification function (`Merge`, `Document`). The properties of merge, write and the wrapper format are proved about those functions. |
| `config_codec.dfy` | `ConfigCodec` | The codec interface as a datatype. It is either the nested-comment codec or a custom codec, which is given by what its three operations compute. |
| `config_manager.dfy` | `ConfigManager` | `filePath`; `load` and `save` as specification functions (`Loaded`, `Saved`) and their properties; the `Manager` class (registry, documents written, register/load/save/loadAll/saveAll/saveDirty); the `Builder`. |
| `example_config.dfy` | `ExampleConfig` | The sample configuration's fields, defaults, `copyFrom` and `validate`, and what the codec and the manager do with it. |

The model takes these inputs as parameters:

- Gson's `fromJson`/`toJsonTree` are the two functions of a `Gson` value.
  A decode answering `None` stands for Gson throwing, or for the reflective
  assignment throwing.
- What reading a file yields is a `FileState`: absent, present and parsed,
  or present but unreadable.
- How a save's I/O ends is an `IoResult`: done, `createDirectories` threw,
  or a later step threw.
- Whether an exception escapes the try block of `load` is a boolean.
- For the bulk operations, all three come from an `Environment`, per path.

The manager's `files` map holds the documents it has moved into place, by path.

## Model

Source paths are relative to the repository root.

| member | source | states |
|---|---|---|
| Json.Get | src/main/java/net/ninjadev/ninjaconfig/codec/GsonNestedCommentCodec.java:57-62 | `get` finds nothing exactly when `has` is false; what it finds is a member of the object |
| Json.Put | src/main/java/net/ninjadev/ninjaconfig/codec/GsonNestedCommentCodec.java:99-106 | after `add`, the key maps to the new element and every other key maps to what it did before |
| Json.PutKeys | src/main/java/net/ninjadev/ninjaconfig/codec/GsonNestedCommentCodec.java:106 | `add` appends a new name at the end; re-adding a name keeps the order of the keys |
| Json.PutUnique | src/main/java/net/ninjadev/ninjaconfig/codec/GsonNestedCommentCodec.java:106 | `add` never produces a duplicate key |
| ConfigBase.BaseHooksChangeNothing | src/main/java/net/ninjadev/ninjaconfig/api/ConfigBase.java:33-47 | the base `validate` returns the very instance it was given, unchanged, so no copy follows; the base `afterLoad` and `beforeSave` change no field |
| ConfigBase.DefaultValidate | src/main/java/net/ninjadev/ninjaconfig/api/ConfigBase.java:33 | the base `validate`: the fields untouched and no replacement instance (proved in `BaseHooksChangeNothing`) |
| ConfigBase.NoOp | src/main/java/net/ninjadev/ninjaconfig/api/ConfigBase.java:44-47 | the base `afterLoad` and `beforeSave`: the fields unchanged (proved in `BaseHooksChangeNothing`) |
| ConfigBase.Config.constructor | src/main/java/net/ninjadev/ninjaconfig/api/ConfigBase.java:14 | a new config starts dirty |
| ConfigBase.Config.MarkDirty | src/main/java/net/ninjadev/ninjaconfig/api/ConfigBase.java:50 | afterwards the config is dirty, and nothing else changes |
| ConfigBase.Config.MarkClean | src/main/java/net/ninjadev/ninjaconfig/api/ConfigBase.java:53 | afterwards the config is clean, and nothing else changes |
| ConfigBase.Config.IsDirty | src/main/java/net/ninjadev/ninjaconfig/api/ConfigBase.java:58 | reports the flag without changing anything |
| ConfigBase.Config.ResetDefaults | src/main/java/net/ninjadev/ninjaconfig/api/ConfigBase.java:20 | the fields take the subclass's defaults; the dirty flag is untouched |
| ConfigBase.Config.Validate | src/main/java/net/ninjadev/ninjaconfig/core/ConfigManager.java:137 | `validate(this)` normalises the fields in place; it reports the other instance's fields when it hands back a different object |
| ConfigBase.Config.CopyFrom | src/main/java/net/ninjadev/ninjaconfig/core/ConfigManager.java:138 | the fields become the subclass's `copyFrom` of the other instance |
| ConfigBase.Config.AfterLoad | src/main/java/net/ninjadev/ninjaconfig/api/ConfigBase.java:44 | the fields become what the subclass's `afterLoad` makes of them |
| ConfigBase.Config.BeforeSave | src/main/java/net/ninjadev/ninjaconfig/api/ConfigBase.java:47 | the fields become what the subclass's `beforeSave` makes of them |
| GsonNestedCommentCodec.DefaultExtension | src/main/java/net/ninjadev/ninjaconfig/codec/GsonNestedCommentCodec.java:115 | the codec's extension is ".json"; `Manager.EntryPathsInRoot` proves every file of a manager using this codec ends with it |
| GsonNestedCommentCodec.IsNotConfigField | src/main/java/net/ninjadev/ninjaconfig/codec/GsonNestedCommentCodec.java:117-123 | a field is hidden when it is synthetic, static or transient, or lacks `@Expose`; `MergeFieldsFrame` and `WriteGetOther` prove hidden fields are neither read nor written |
| GsonNestedCommentCodec.IsBlank | src/main/java/net/ninjadev/ninjaconfig/codec/GsonNestedCommentCodec.java:103 | `String.isBlank`: every character is whitespace in the sense of `Character.isWhitespace`; `WrapperComment` proves a blank comment is not written |
| GsonNestedCommentCodec.Unwrap | src/main/java/net/ninjadev/ninjaconfig/codec/GsonNestedCommentCodec.java:62-65 | the element merged for a field: the `value` member of an object that has one, otherwise the element itself, one level only; `UnwrapInvertsWrapper` and `FlatMatchesWrapped` prove what it gives |
| GsonNestedCommentCodec.Wrapper | src/main/java/net/ninjadev/ninjaconfig/codec/GsonNestedCommentCodec.java:99-105 | the wrapper `write` builds for a field: `value`, then `comment` when the comment is not blank; `WrapperComment` proves its keys and comment |
| GsonNestedCommentCodec.Merge | src/main/java/net/ninjadev/ninjaconfig/codec/GsonNestedCommentCodec.java:39-77 | the reference definition of mergeInto: the flags and the target's fields afterwards; `MergeOutcome`, `MergeFieldsMissing`, `MergeFieldsAt`, `MergeFieldsFrame` and `RoundTrip` prove its properties |
| GsonNestedCommentCodec.Document | src/main/java/net/ninjadev/ninjaconfig/codec/GsonNestedCommentCodec.java:88-107 | the reference definition of write's output object; `WriteKeys`, `WriteGetField`, `WriteGetOther` and `RoundTrip` prove its properties |
| GsonNestedCommentCodec.MergeInto | src/main/java/net/ninjadev/ninjaconfig/codec/GsonNestedCommentCodec.java:39-77 | the loop over the declared fields computes exactly `Merge`: the same flags and the same field values |
| GsonNestedCommentCodec.Write | src/main/java/net/ninjadev/ninjaconfig/codec/GsonNestedCommentCodec.java:88-107 | the loop builds exactly `Document`, the object whose properties `WriteKeys`, `WriteGetField`, `WriteGetOther` and `RoundTrip` prove |
| GsonNestedCommentCodec.UnwrapInvertsWrapper | src/main/java/net/ninjadev/ninjaconfig/codec/GsonNestedCommentCodec.java:62-65 | unwrapping what `write` wrapped gives back the encoded value, whatever the comment |
| GsonNestedCommentCodec.WrapperComment | src/main/java/net/ninjadev/ninjaconfig/codec/GsonNestedCommentCodec.java:99-105 | a wrapper has the keys `value` then `comment`, or `value` alone; `comment` is present exactly when the field has a non-blank `@Comment`, and then it holds that text |
| GsonNestedCommentCodec.MergeFieldsMissing | src/main/java/net/ninjadev/ninjaconfig/codec/GsonNestedCommentCodec.java:51-74 | `missing` is raised exactly when some exposed field is absent from the document or fails to decode |
| GsonNestedCommentCodec.MergeFieldsFrame | src/main/java/net/ninjadev/ninjaconfig/codec/GsonNestedCommentCodec.java:53-54 | a name no exposed field carries keeps its value, or its absence |
| GsonNestedCommentCodec.MergeFieldsAt | src/main/java/net/ninjadev/ninjaconfig/codec/GsonNestedCommentCodec.java:57-73 | an exposed field receives its decoded (unwrapped) value when there is one; otherwise it keeps its prior value, and the fields after it are still merged |
| GsonNestedCommentCodec.MergeOutcome | src/main/java/net/ninjadev/ninjaconfig/codec/GsonNestedCommentCodec.java:39-77 | an absent file gives (false, true, false) and an unreadable or non-object document gives (true, true, true), both with the target untouched; otherwise the result is (true, m, false), where m holds exactly when some exposed field was absent or undecodable |
| GsonNestedCommentCodec.WrittenNamesIn | src/main/java/net/ninjadev/ninjaconfig/codec/GsonNestedCommentCodec.java:92-97 | every written name belongs to an exposed field whose value could be read |
| GsonNestedCommentCodec.WriteKeys | src/main/java/net/ninjadev/ninjaconfig/codec/GsonNestedCommentCodec.java:92-106 | `write` emits one key per exposed, readable field, in declaration order, each once |
| GsonNestedCommentCodec.WriteGetField | src/main/java/net/ninjadev/ninjaconfig/codec/GsonNestedCommentCodec.java:99-106 | each exposed, readable field is written as the wrapper of its encoded value |
| GsonNestedCommentCodec.WriteGetOther | src/main/java/net/ninjadev/ninjaconfig/codec/GsonNestedCommentCodec.java:117-123 | synthetic, static, transient or un-exposed fields, and fields that cannot be read, are never written |
| GsonNestedCommentCodec.RoundTrip | src/main/java/net/ninjadev/ninjaconfig/codec/GsonNestedCommentCodec.java:39-106 | when Gson decodes each encoding back to its value, merging the written document reports (true, false, false), restores every exposed field and leaves every other field as it was |
| GsonNestedCommentCodec.MergeFieldsCongruent | src/main/java/net/ninjadev/ninjaconfig/codec/GsonNestedCommentCodec.java:53-74 | the merge depends on the document only through what each field decodes to |
| GsonNestedCommentCodec.FlatMatchesWrapped | src/main/java/net/ninjadev/ninjaconfig/codec/GsonNestedCommentCodec.java:62-65 | a flat document merges exactly like its wrapped form, provided no flat element is itself an object with a `value` member |
| ConfigCodec.MergeInto | src/main/java/net/ninjadev/ninjaconfig/codec/ConfigCodec.java:23 | the codec's merge gives the codec's flags and field values, for the built-in codec and for a custom one |
| ConfigCodec.Write | src/main/java/net/ninjadev/ninjaconfig/codec/ConfigCodec.java:33 | the codec's write produces the codec's document for the object's current fields |
| ConfigManager.FileName | src/main/java/net/ninjadev/ninjaconfig/core/ConfigManager.java:175 | the extension is appended unless the name already ends with it; `FileNameSpec`, `FileNameIdempotent` and `FileNameCollision` prove its properties |
| ConfigManager.FileNameSpec | src/main/java/net/ninjadev/ninjaconfig/core/ConfigManager.java:174-177 | the resolved name always ends with the extension and starts with the given name; it equals the given name exactly when that already ended with the extension |
| ConfigManager.FileNameIdempotent | src/main/java/net/ninjadev/ninjaconfig/core/ConfigManager.java:175 | applying the naming rule twice changes nothing |
| ConfigManager.FileNameCollision | src/main/java/net/ninjadev/ninjaconfig/core/ConfigManager.java:175 | every name that does not end with the extension and the same name with the extension are different registration names that resolve to the same file; the duplicate check at register compares only the names |
| ConfigManager.NeedsRewrite | src/main/java/net/ninjadev/ninjaconfig/core/ConfigManager.java:143 | the rewrite condition: absent file, missing keys or parse error; `NestedRewriteIffMissing` proves it is exactly `missingKeys` for the built-in codec |
| ConfigManager.Validated | src/main/java/net/ninjadev/ninjaconfig/core/ConfigManager.java:137-138 | the fields after `validate`, copied back with `copyFrom` only when it handed back another instance |
| ConfigManager.Saved | src/main/java/net/ninjadev/ninjaconfig/core/ConfigManager.java:153-172 | the reference definition of save per I/O outcome: `beforeSave` only once the directory exists, document and clean flag only on success; `Manager.Save` is proved to end in it and `SaveLocal`, `LoadNeverDirties` prove its properties |
| ConfigManager.Loaded | src/main/java/net/ninjadev/ninjaconfig/core/ConfigManager.java:129-151 | the reference definition of load: reset, merge, validate, copy back, `afterLoad`, clean, rewrite on demand; after an exception, reset and save. `Manager.Load` is proved to end in it; `LoadEndsClean`, `LoadRewrite`, `LoadRegenerates`, `LoadIgnoresPriorValues` and `LoadLocal` prove its properties |
| ConfigManager.LoadNeverDirties | src/main/java/net/ninjadev/ninjaconfig/core/ConfigManager.java:129-172 | neither load nor save ever sets the dirty flag |
| ConfigManager.LoadEndsClean | src/main/java/net/ninjadev/ninjaconfig/core/ConfigManager.java:141-150 | a load ends clean unless an exception forced a regeneration whose save failed; then the flag is as before the load. A rewrite that fails after a good merge still leaves the config clean. |
| ConfigManager.LoadRewrite | src/main/java/net/ninjadev/ninjaconfig/core/ConfigManager.java:143-145 | without an exception, the store changes only when the merge result says absent, missing or unreadable; then, if the I/O succeeds, the loaded values' document is put at the config's path |
| ConfigManager.LoadRegenerates | src/main/java/net/ninjadev/ninjaconfig/core/ConfigManager.java:146-150 | after an exception the fields are the defaults, passed through `beforeSave` once the directory exists, and on success their document is what is written |
| ConfigManager.LoadIgnoresPriorValues | src/main/java/net/ninjadev/ninjaconfig/core/ConfigManager.java:133 | load resets before it merges, so the fields held before a load do not affect its outcome |
| ConfigManager.SaveLocal | src/main/java/net/ninjadev/ninjaconfig/core/ConfigManager.java:153-172 | save changes no path but its own, and what it does depends only on the store at that path |
| ConfigManager.LoadLocal | src/main/java/net/ninjadev/ninjaconfig/core/ConfigManager.java:129-151 | load changes no path but its own, and what it does depends only on the store at that path |
| ConfigManager.NestedRewriteIffMissing | src/main/java/net/ninjadev/ninjaconfig/core/ConfigManager.java:143 | with the nested-comment codec, the rewrite condition is exactly the `missingKeys` flag |
| ConfigManager.LoadCompleteDocument | src/main/java/net/ninjadev/ninjaconfig/core/ConfigManager.java:143-145 | a document from which every exposed field decodes causes no rewrite: the store is left alone and the config ends clean |
| ConfigManager.Manager.constructor | src/main/java/net/ninjadev/ninjaconfig/core/ConfigManager.java:94-96 | a new manager keeps the given root, codec and policy, and has no entries and no documents |
| ConfigManager.Manager.FilePath | src/main/java/net/ninjadev/ninjaconfig/core/ConfigManager.java:174-177 | the naming rule's name resolved under the root; `EntryPathsInRoot` proves where registered files lie |
| ConfigManager.Manager.EntryPathsInRoot | src/main/java/net/ninjadev/ninjaconfig/core/ConfigManager.java:174-177 | for a base file name (a single path element, as register's documentation asks), every registered file lies directly in the root directory, begins with its registration name and carries the codec's extension (".json" for the default codec) |
| ConfigManager.Manager.Save | src/main/java/net/ninjadev/ninjaconfig/core/ConfigManager.java:153-172 | the config and the store end as `Saved` says. `beforeSave` runs only once the directory exists, the document lands at the config's path and the config turns clean only when every step succeeds, and no other path changes. |
| ConfigManager.Manager.Load | src/main/java/net/ninjadev/ninjaconfig/core/ConfigManager.java:129-151 | the config and the store end as `Loaded` says: reset, merge, validate, copy back, `afterLoad`, clean, rewrite on demand; after an exception, reset and save. A load ends clean unless the regeneration's save failed, and no other path changes. |
| ConfigManager.Manager.LoadFields | src/main/java/net/ninjadev/ninjaconfig/core/ConfigManager.java:135-141 | the try block merges, validates, copies back only when validate handed back another instance, runs `afterLoad` and leaves the config clean; it returns the merge result |
| ConfigManager.Manager.Register | src/main/java/net/ninjadev/ninjaconfig/core/ConfigManager.java:109-115 | a taken name gives the `Duplicate config: <name>` error and changes nothing; otherwise exactly one entry is added under the name, with the codec's extension. It is loaded at once (as `Loaded` says) only under EAGER, and the same config is handed back. |
| ConfigManager.Manager.LoadAll | src/main/java/net/ninjadev/ninjaconfig/core/ConfigManager.java:118 | every entry is loaded; a config ends clean unless its regeneration's save failed, and no file outside the registered paths changes |
| ConfigManager.Manager.SaveAll | src/main/java/net/ninjadev/ninjaconfig/core/ConfigManager.java:120 | every entry is saved; every config whose save succeeded ends clean, and no file outside the registered paths changes |
| ConfigManager.Manager.SaveIfDirty | src/main/java/net/ninjadev/ninjaconfig/core/ConfigManager.java:122 | the filter step: a dirty entry is saved as `Saved` says; a clean one is left alone with its fields and the store unchanged; only that entry's config and the store may change |
| ConfigManager.Manager.SaveDirty | src/main/java/net/ninjadev/ninjaconfig/core/ConfigManager.java:122-127 | configs clean at the start keep their fields and stay clean; every config whose save succeeded ends clean; a file changes only if an entry using it was dirty at the start |
| ConfigManager.Builder.constructor | src/main/java/net/ninjadev/ninjaconfig/core/ConfigManager.java:61-64 | the root defaults to the mod id under the config directory, no codec is chosen and the policy is EAGER |
| ConfigManager.Builder.SetRootDir | src/main/java/net/ninjadev/ninjaconfig/core/ConfigManager.java:67 | sets the root and returns the same builder |
| ConfigManager.Builder.SetCodec | src/main/java/net/ninjadev/ninjaconfig/core/ConfigManager.java:69 | sets the codec and returns the same builder |
| ConfigManager.Builder.SetPolicy | src/main/java/net/ninjadev/ninjaconfig/core/ConfigManager.java:73 | sets the policy and returns the same builder |
| ConfigManager.Builder.Build | src/main/java/net/ninjadev/ninjaconfig/core/ConfigManager.java:80-84 | a fresh, empty manager with the builder's root and policy; the nested-comment codec when none was set |
| ExampleConfig.Fields | src/main/java/net/ninjadev/ninjaconfig/example/ExampleConfig.java:10-18 | the three declared fields have distinct names and are all exposed config fields, and no other name is one |
| ExampleConfig.Defaults | src/main/java/net/ninjadev/ninjaconfig/example/ExampleConfig.java:21-25 | the defaults set exactly the three fields, with `someInt` inside 1..100 |
| ExampleConfig.CopyFrom | src/main/java/net/ninjadev/ninjaconfig/example/ExampleConfig.java:28-32 | the three fields take the other instance's values and nothing else changes |
| ExampleConfig.Validate | src/main/java/net/ninjadev/ninjaconfig/example/ExampleConfig.java:35-40 | `validate` returns the same instance, so no copy follows. Afterwards `someInt` is within 1..100; an in-range value and every other field are left unchanged. |
| ExampleConfig.ExampleHooks | src/main/java/net/ninjadev/ninjaconfig/example/ExampleConfig.java:20-45 | `ExampleConfig`'s overrides: its defaults, `validate` and `copyFrom`, with `afterLoad` (which only logs) and the inherited `beforeSave` leaving the fields unchanged; `LoadKeepsRange` and `SaveThenLoad` prove what a load does with them |
| ExampleConfig.LoadKeepsRange | src/main/java/net/ninjadev/ninjaconfig/example/ExampleConfig.java:35-40 | whatever the file holds and however the load and its save go, an `ExampleConfig` ends every load with `someInt` in 1..100 |
| ExampleConfig.WrittenKeys | src/main/java/net/ninjadev/ninjaconfig/example/ExampleConfig.java:10-18 | the written document has the keys `someString`, `someInt`, `someObject`, in that order |
| ExampleConfig.WrittenWrappers | src/main/java/net/ninjadev/ninjaconfig/example/ExampleConfig.java:10-18 | `someString` and `someInt` are written with their comments, `someObject` with no `comment` key |
| ExampleConfig.MergeWritten | src/main/java/net/ninjadev/ninjaconfig/example/ExampleConfig.java:10-18 | merging an `ExampleConfig` document onto the defaults gives back exactly the written values and reports nothing missing |
| ExampleConfig.SaveThenLoad | src/main/java/net/ninjadev/ninjaconfig/core/ConfigManager.java:129-145 | loading the document written for in-range values gives back exactly those values, leaves the store alone and the config clean |
| ExampleConfig.FlatObjectMisread | src/main/java/net/ninjadev/ninjaconfig/example/ExampleObject.java:13 | a flat `someObject` is an object with its own `value` member, so the codec unwraps it to that number. When Gson refuses the number, `someObject` keeps its default and the key is reported missing, which makes load rewrite the file. |

## Left out

- File I/O is not modelled: `Files.exists`, readers, writers, JSON text parsing and pretty-printing. A read is a `FileState` input, and the effect of a successful write is the document entered in `files`.
- `createDirectories`, `createTempFile` and the two `move` calls are not modelled separately. The atomic move, its fallback and the temporary file are folded into one `IoResult` outcome. Reads are not tied to earlier writes: what `load` reads is an input.
- Gson and reflection are parameters: `fromJson`, `toJsonTree`, `setAccessible`, `Field.get` and `Field.set`. Gson dropping null members is not modelled. `getDeclaredFields` order is taken to be the order of the field table.
- Logging (SLF4J), `Builder.logger` and the logger chosen in `build` are not modelled. FabricLoader's config directory is a constructor parameter of `Builder`.
- Concurrency is not modelled. The `ConcurrentHashMap` registry is a `map`, and the `volatile` dirty flag is a plain field.
- File names are taken as base file names, single path elements, as register's documentation calls them: `Resolve` appends the name as one element. A name holding a separator (`client/settings`, which `Path.resolve` puts in a subdirectory) or an absolute name (which resolves outside the root) is not modelled. Neither is what such a name leads to: `createTempFile` rejects the prefix with an unchecked `IllegalArgumentException`. That exception arises whenever a save gets past a successful `createDirectories`. `save` does not catch it. `load`'s catch block does catch the one thrown by the rewrite's save, but the catch block's own save throws it again. So under EAGER, `register` of such a name throws, after the entry has been added, whenever `load` reaches such a save. That is either after a merge that needs a rewrite (file absent, incomplete or unreadable) or after an exception in the try block. In those cases `Register` returns `Success`.
- `Entry`'s `requireNonNull` checks have no counterpart, because Dafny values are never null. `Entry` is a datatype.
- `getSnapshot` is folded into the loops of `LoadAll`, `SaveAll` and `SaveDirty`. They visit every registered name once, in an unspecified order, as `List.copyOf` over a `ConcurrentHashMap` does.
- A runtime exception escaping `save` is not modelled: one thrown by `beforeSave` or a custom codec, or the `JsonIOException` Gson's `toJson` raises when writing fails (only a failure to open or close the writer arrives as an `IOException` that `save` catches). `IoResult.WriteFails` stands only for IOExceptions. Exceptions during `load` are modelled as one input flag; the model does not track where in the try block they were thrown.
- `resetDefaults` is a constant map of field values per config type, which replaces every field. This is why the state after an exception does not depend on how far the try block got. It is also why `ConfigManager.LoadIgnoresPriorValues` holds. That lemma therefore covers only configs whose `resetDefaults` assigns every field, as `ExampleConfig`'s does; a field left unassigned carries its prior value through a load in the source.
- Hooks are functions of the field values (`ConfigBase.Hooks`). A Java override that changes the dirty flag, for instance a `beforeSave` calling the public `markDirty()`, or one that changes other objects or the manager, has no counterpart. `ConfigManager.LoadNeverDirties` and `ConfigManager.LoadEndsClean` rely on this: in the source, such an override followed by a failed write leaves a clean config dirty.
- `ExampleConfig.afterLoad` only logs; it is modelled as leaving the fields unchanged.
- `ExampleObject`'s own fields and its constructor are not modelled beyond the value `ExampleObject(name, value)`. A null `name` has no counterpart.
- ConfigManager.Manager.LoadAll: states only the final dirty flags and the frame on paths. It does not state each entry's final fields, because entries may share a config object or a file and the visiting order is unspecified.
- ConfigManager.Manager.SaveAll: states only the final dirty flags and the frame on paths, for the same reason.
- ConfigManager.Manager.SaveDirty: states that clean configs are untouched, the dirty flags after a successful save, and the frame on paths. It does not state the fields or documents of the entries it saved, for the same reason.
- JSON numbers are integers (`Num(n: int)`), so a document cannot hold a fractional number. `someInt` is an unbounded integer, where the Java field is a 32-bit `int`. No proved property depends on either.

=== FILE: codec.dfy ===
/**
 * GsonNestedCommentCodec: merges a JSON document into an existing object field
 * by field, and writes an object as a JSON object in which every exposed field
 * is wrapped as {"value": ..., "comment": ...}.
 *
 * Gson itself (fromJson, toJsonTree) is foreign code: it enters the model as
 * the two functions of a `Gson` value. `fromJson` answering None stands for
 * Gson throwing or for the reflective assignment of its result throwing.
 */
module GsonNestedCommentCodec {
  import opened Wrappers
  import opened Json
  import opened Reflection
  import opened ConfigBase

  /** Whether the file existed, whether some field was absent or undecodable, whether the document could not be read as an object. */
  datatype MergeResult = MergeResult(fileExists: bool, missingKeys: bool, parseError: bool)

  /**
   * What the file system and Gson's parser give for the file: it is absent, or
   * it is present and parses to a root element (None when reading or parsing threw).
   */
  datatype FileState = Absent | Present(parsed: Option<Node>)

  /** The Gson instance: decoding a JSON element into a field's declared type, and encoding a value. */
  datatype Gson<!V> = Gson(fromJson: (Node, Field) -> Option<V>, toJsonTree: V -> Node)

  function DefaultExtension(): string
  {
    ".json"
  }

  /** Synthetic, static, transient and un-annotated fields are invisible to the codec. */
  predicate IsNotConfigField(f: Field)
  {
    f.synthetic || f.isStatic || f.isTransient || !f.exposed
  }

  /** Character.isWhitespace: Unicode space separators other than the non-breaking ones, and the ASCII controls \t..\r, FS, GS, RS, US. */
  predicate IsWhitespace(c: char)
  {
    var n := c as int;
    (0x09 <= n <= 0x0D) || (0x1C <= n <= 0x20) || n == 0x1680 || (0x2000 <= n <= 0x2006)
    || (0x2008 <= n <= 0x200A) || n == 0x2028 || n == 0x2029 || n == 0x205F || n == 0x3000
  }

  /** String.isBlank */
  predicate IsBlank(s: string)
  {
    forall i :: 0 <= i < |s| ==> IsWhitespace(s[i])
  }

  /** The field carries a @Comment whose text is not blank. */
  predicate HasComment(f: Field)
  {
    f.comment.Some? && !IsBlank(f.comment.value)
  }

  /** The element merged for a field: the "value" member of an object that has one, otherwise the element itself. */
  function Unwrap(raw: Node): Node
  {
    if raw.Obj? && Has(raw.members, "value") then Get(raw.members, "value").value else raw
  }

  /** The wrapper written for a field: {"value": value} plus "comment" when the field has a non-blank comment. */
  function Wrapper(value: Node, f: Field): Node
  {
    Obj([("value", value)] + if HasComment(f) then [("comment", Str(f.comment.value))] else [])
  }

  /** What a field receives from the document: None when its name is absent or decoding (or assignment) fails. */
  function Decoded<V>(gson: Gson<V>, src: seq<Member>, f: Field): Option<V>
  {
    match Get(src, f.name)
    case None => None
    case Some(raw) => gson.fromJson(Unwrap(raw), f)
  }

  /** An exposed field that the merge cannot fill: it raises the missing flag. */
  predicate FieldFails<V>(gson: Gson<V>, src: seq<Member>, f: Field)
  {
    !IsNotConfigField(f) && Decoded(gson, src, f).None?
  }

  /** The names of the fields the codec reads and writes. */
  function ConfigNames(fields: seq<Field>): set<string>
  {
    set i | 0 <= i < |fields| && !IsNotConfigField(fields[i]) :: fields[i].name
  }

  /** One iteration of the merge loop over the declared fields. */
  function MergeField<V>(gson: Gson<V>, src: seq<Member>, f: Field, acc: (map<string, V>, bool)): (map<string, V>, bool)
  {
    if IsNotConfigField(f) then acc
    else match Decoded(gson, src, f)
      case None => (acc.0, true)
      case Some(v) => (acc.0[f.name := v], acc.1)
  }

  /** The merge loop run over `fields` in order: the new field values and the missing flag. */
  function MergeFields<V>(gson: Gson<V>, src: seq<Member>, fields: seq<Field>, target: map<string, V>): (map<string, V>, bool)
  {
    if fields == [] then (target, false)
    else MergeField(gson, src, fields[|fields| - 1], MergeFields(gson, src, fields[..|fields| - 1], target))
  }

  /** mergeInto: the result flags and the target's field values afterwards. */
  function Merge<V>(gson: Gson<V>, file: FileState, fields: seq<Field>, target: map<string, V>): (MergeResult, map<string, V>)
  {
    match file
    case Absent => (MergeResult(false, true, false), target)
    case Present(parsed) =>
      if parsed.None? || !parsed.value.Obj? then (MergeResult(true, true, true), target)
      else
        var (t, missing) := MergeFields(gson, parsed.value.members, fields, target);
        (MergeResult(true, missing, false), t)
  }

  /** The members `write` adds for `fields`, in order; a field whose value cannot be read (absent from `values`) is skipped. */
  function WriteMembers<V>(gson: Gson<V>, fields: seq<Field>, values: map<string, V>): seq<Member>
  {
    if fields == [] then []
    else
      var out := WriteMembers(gson, fields[..|fields| - 1], values);
      var f := fields[|fields| - 1];
      if IsNotConfigField(f) || f.name !in values then out
      else Put(out, f.name, Wrapper(gson.toJsonTree(values[f.name]), f))
  }

  /** The document `write` produces. */
  function Document<V>(gson: Gson<V>, fields: seq<Field>, values: map<string, V>): Node
  {
    Obj(WriteMembers(gson, fields, values))
  }

  /** The names `write` emits, in declaration order: the exposed fields whose value can be read. */
  function WrittenNames<V>(fields: seq<Field>, values: map<string, V>): seq<string>
  {
    if fields == [] then []
    else
      var f := fields[|fields| - 1];
      WrittenNames(fields[..|fields| - 1], values)
      + if IsNotConfigField(f) || f.name !in values then [] else [f.name]
  }

  method MergeInto<V>(gson: Gson<V>, file: FileState, target: Config<V>) returns (r: MergeResult)
    modifies target`values
    ensures (r, target.values) == Merge(gson, file, target.fields, old(target.values))
  {
    if file.Absent? {
      return MergeResult(false, true, false);
    }
    if file.parsed.None? || !file.parsed.value.Obj? {
      return MergeResult(true, true, true);
    }
    var source := file.parsed.value.members;
    var missing := false;
    var i := 0;
    while i < |target.fields|
      invariant 0 <= i <= |target.fields|
      invariant (target.values, missing) == MergeFields(gson, source, target.fields[..i], old(target.values))
    {
      var f := target.fields[i];
      assert target.fields[..i + 1][..i] == target.fields[..i];
      if !IsNotConfigField(f) {
        if !Has(source, f.name) {
          missing := true;
        } else {
          var raw := Get(source, f.name).value;
          var val := if raw.Obj? && Has(raw.members, "value") then Get(raw.members, "value").value else raw;
          var parsed := gson.fromJson(val, f);
          if parsed.None? {
            missing := true;
          } else {
            target.values := target.values[f.name := parsed.value];
          }
        }
      }
      i := i + 1;
    }
    assert target.fields[..i] == target.fields;
    r := MergeResult(true, missing, false);
  }

  method Write<V>(gson: Gson<V>, instance: Config<V>) returns (doc: Node)
    ensures doc == Document(gson, instance.fields, instance.values)
  {
    var out: seq<Member> := [];
    var i := 0;
    while i < |instance.fields|
      invariant 0 <= i <= |instance.fields|
      invariant out == WriteMembers(gson, instance.fields[..i], instance.values)
    {
      var f := instance.fields[i];
      assert instance.fields[..i + 1][..i] == instance.fields[..i];
      if !IsNotConfigField(f) && f.name in instance.values {
        var value := gson.toJsonTree(instance.values[f.name]);
        var wrapper := Put([], "value", value);
        assert wrapper == [("value", value)];
        if f.comment.Some? && !IsBlank(f.comment.value) {
          assert Put(wrapper, "comment", Str(f.comment.value)) == [("value", value)] + Put([], "comment", Str(f.comment.value));
          wrapper := Put(wrapper, "comment", Str(f.comment.value));
        }
        assert Obj(wrapper) == Wrapper(gson.toJsonTree(instance.values[f.name]), f);
        out := Put(out, f.name, Obj(wrapper));
      }
      i := i + 1;
    }
    assert instance.fields[..i] == instance.fields;
    doc := Obj(out);
  }

  // ---------------------------------------------------------------------------
  // Properties of the wrapper format

  /** Unwrapping what `write` wrapped gives back the encoded value, whatever the comment. */
  lemma UnwrapInvertsWrapper(value: Node, f: Field)
    ensures Unwrap(Wrapper(value, f)) == value
  {
    var ms := Wrapper(value, f).members;
    assert Keys(ms)[0] == "value";
  }

  /** A wrapper has the key "comment" exactly when the field has a non-blank @Comment, and then it holds that text. */
  lemma WrapperComment(value: Node, f: Field)
    ensures Keys(Wrapper(value, f).members) == if HasComment(f) then ["value", "comment"] else ["value"]
    ensures Has(Wrapper(value, f).members, "comment") <==> HasComment(f)
    ensures HasComment(f) ==> Get(Wrapper(value, f).members, "comment") == Some(Str(f.comment.value))
  {
  }

  // ---------------------------------------------------------------------------
  // Properties of the merge loop

  /** The exposed-field names of a prefix are among those of the whole; the last field adds at most its own name. */
  lemma ConfigNamesPrefix(fields: seq<Field>)
    requires fields != []
    ensures var n := |fields| - 1;
      ConfigNames(fields) == ConfigNames(fields[..n]) + if IsNotConfigField(fields[n]) then {} else {fields[n].name}
  {
    var n := |fields| - 1;
    forall x | x in ConfigNames(fields[..n])
      ensures x in ConfigNames(fields)
    {
      var j :| 0 <= j < n && !IsNotConfigField(fields[..n][j]) && fields[..n][j].name == x;
      assert fields[j] == fields[..n][j];
    }
    forall j | 0 <= j < n && !IsNotConfigField(fields[j])
      ensures fields[j].name in ConfigNames(fields[..n])
    {
      assert fields[..n][j] == fields[j];
    }
  }

  /** With distinct names, no earlier exposed field shares the last field's name. */
  lemma LastNameFresh(fields: seq<Field>)
    requires DistinctNames(fields) && fields != []
    ensures fields[|fields| - 1].name !in ConfigNames(fields[..|fields| - 1])
    ensures DistinctNames(fields[..|fields| - 1])
  {
    var n := |fields| - 1;
    forall j | 0 <= j < n
      ensures fields[..n][j].name != fields[n].name
    {
      assert fields[..n][j] == fields[j];
    }
  }

  /** The merge raises `missing` exactly when some exposed field is absent from the document or fails to decode. */
  lemma {:induction false} MergeFieldsMissing<V>(gson: Gson<V>, src: seq<Member>, fields: seq<Field>, target: map<string, V>)
    ensures MergeFields(gson, src, fields, target).1 <==> exists i :: 0 <= i < |fields| && FieldFails(gson, src, fields[i])
  {
    if fields != [] {
      var n := |fields| - 1;
      MergeFieldsMissing(gson, src, fields[..n], target);
      if exists i :: 0 <= i < n && FieldFails(gson, src, fields[..n][i]) {
        var i :| 0 <= i < n && FieldFails(gson, src, fields[..n][i]);
        assert fields[i] == fields[..n][i];
      }
      if exists i :: 0 <= i < |fields| && FieldFails(gson, src, fields[i]) {
        var i :| 0 <= i < |fields| && FieldFails(gson, src, fields[i]);
        if i < n {
          assert fields[..n][i] == fields[i];
        }
      }
    }
  }

  /** A name that no exposed field carries keeps its value (or its absence): nothing else changes. */
  lemma {:induction false} MergeFieldsFrame<V>(gson: Gson<V>, src: seq<Member>, fields: seq<Field>, target: map<string, V>, k: string)
    requires k !in ConfigNames(fields)
    ensures var t := MergeFields(gson, src, fields, target).0;
      (k in t <==> k in target) && (k in t ==> t[k] == target[k])
  {
    if fields != [] {
      var n := |fields| - 1;
      ConfigNamesPrefix(fields);
      MergeFieldsFrame(gson, src, fields[..n], target, k);
    }
  }

  /**
   * An exposed field receives the decoded value when there is one, and otherwise
   * keeps the value it had before the merge.
   */
  lemma {:induction false} MergeFieldsAt<V>(gson: Gson<V>, src: seq<Member>, fields: seq<Field>, target: map<string, V>, i: nat)
    requires DistinctNames(fields) && i < |fields| && !IsNotConfigField(fields[i])
    ensures var t := MergeFields(gson, src, fields, target).0;
      var k := fields[i].name;
      && (Decoded(gson, src, fields[i]).Some? ==> k in t && t[k] == Decoded(gson, src, fields[i]).value)
      && (Decoded(gson, src, fields[i]).None? ==> (k in t <==> k in target) && (k in t ==> t[k] == target[k]))
  {
    var n := |fields| - 1;
    LastNameFresh(fields);
    if i == n {
      MergeFieldsFrame(gson, src, fields[..n], target, fields[i].name);
    } else {
      assert fields[..n][i] == fields[i];
      MergeFieldsAt(gson, src, fields[..n], target, i);
      assert fields[n].name != fields[i].name;
    }
  }

  /**
   * The outcome of mergeInto: an absent file gives (false, true, false), an
   * unreadable document or a non-object root gives (true, true, true), and in
   * both cases the target is untouched; otherwise (true, m, false) where m says
   * whether some exposed field was absent or undecodable.
   */
  lemma MergeOutcome<V>(gson: Gson<V>, file: FileState, fields: seq<Field>, target: map<string, V>)
    ensures var (r, t) := Merge(gson, file, fields, target);
      && r.fileExists == file.Present?
      && r.parseError == (file.Present? && (file.parsed.None? || !file.parsed.value.Obj?))
      && (!r.fileExists || r.parseError ==> r.missingKeys && t == target)
      && (r.fileExists && !r.parseError ==>
            (r.missingKeys <==> exists i :: 0 <= i < |fields| && FieldFails(gson, file.parsed.value.members, fields[i])))
  {
    if file.Present? && file.parsed.Some? && file.parsed.value.Obj? {
      MergeFieldsMissing(gson, file.parsed.value.members, fields, target);
    }
  }

  // ---------------------------------------------------------------------------
  // Properties of write

  /** Every name `write` emits belongs to an exposed field whose value is readable. */
  lemma {:induction false} WrittenNamesIn<V>(fields: seq<Field>, values: map<string, V>, x: string)
    requires x in WrittenNames(fields, values)
    ensures x in ConfigNames(fields) && x in values
  {
    var n := |fields| - 1;
    ConfigNamesPrefix(fields);
    if x in WrittenNames(fields[..n], values) {
      WrittenNamesIn(fields[..n], values, x);
    }
  }

  /** `write` emits one key per exposed, readable field, in declaration order, each once. */
  lemma {:induction false} WriteKeys<V>(gson: Gson<V>, fields: seq<Field>, values: map<string, V>)
    requires DistinctNames(fields)
    ensures Keys(WriteMembers(gson, fields, values)) == WrittenNames(fields, values)
    ensures UniqueKeys(WriteMembers(gson, fields, values))
  {
    if fields != [] {
      var n := |fields| - 1;
      var f := fields[n];
      LastNameFresh(fields);
      WriteKeys(gson, fields[..n], values);
      var out := WriteMembers(gson, fields[..n], values);
      if !IsNotConfigField(f) && f.name in values {
        if f.name in WrittenNames(fields[..n], values) {
          WrittenNamesIn(fields[..n], values, f.name);
        }
        var w := Wrapper(gson.toJsonTree(values[f.name]), f);
        PutKeys(out, f.name, w);
        PutUnique(out, f.name, w);
      }
    }
  }

  /** Each exposed, readable field is written as the wrapper of its encoded value. */
  lemma {:induction false} WriteGetField<V>(gson: Gson<V>, fields: seq<Field>, values: map<string, V>, i: nat)
    requires DistinctNames(fields) && i < |fields|
    requires !IsNotConfigField(fields[i]) && fields[i].name in values
    ensures Get(WriteMembers(gson, fields, values), fields[i].name)
         == Some(Wrapper(gson.toJsonTree(values[fields[i].name]), fields[i]))
  {
    var n := |fields| - 1;
    LastNameFresh(fields);
    if i < n {
      assert fields[..n][i] == fields[i];
      WriteGetField(gson, fields[..n], values, i);
      assert fields[n].name != fields[i].name;
    }
  }

  /** Names of hidden fields, of fields the class does not expose and of unreadable fields are never written. */
  lemma {:induction false} WriteGetOther<V>(gson: Gson<V>, fields: seq<Field>, values: map<string, V>, k: string)
    requires k !in ConfigNames(fields) || k !in values
    ensures Get(WriteMembers(gson, fields, values), k).None?
  {
    if fields != [] {
      var n := |fields| - 1;
      ConfigNamesPrefix(fields);
      WriteGetOther(gson, fields[..n], values, k);
    }
  }

  /**
   * Round trip: when Gson decodes each exposed field's encoding back to its
   * value, merging the written document restores every exposed field, reports
   * (true, false, false), and leaves all other fields as they were.
   */
  lemma RoundTrip<V>(gson: Gson<V>, fields: seq<Field>, values: map<string, V>, target: map<string, V>)
    requires DistinctNames(fields)
    requires forall i :: 0 <= i < |fields| && !IsNotConfigField(fields[i]) ==>
      fields[i].name in values
      && gson.fromJson(gson.toJsonTree(values[fields[i].name]), fields[i]) == Some(values[fields[i].name])
    ensures var (r, t) := Merge(gson, Present(Some(Document(gson, fields, values))), fields, target);
      && r == MergeResult(true, false, false)
      && (forall i :: 0 <= i < |fields| && !IsNotConfigField(fields[i]) ==>
            fields[i].name in t && t[fields[i].name] == values[fields[i].name])
      && (forall k :: k !in ConfigNames(fields) ==> (k in t <==> k in target) && (k in t ==> t[k] == target[k]))
  {
    var src := WriteMembers(gson, fields, values);
    forall i | 0 <= i < |fields| && !IsNotConfigField(fields[i])
      ensures Decoded(gson, src, fields[i]) == Some(values[fields[i].name])
    {
      WriteGetField(gson, fields, values, i);
      UnwrapInvertsWrapper(gson.toJsonTree(values[fields[i].name]), fields[i]);
    }
    MergeFieldsMissing(gson, src, fields, target);
    forall i | 0 <= i < |fields| && !IsNotConfigField(fields[i])
      ensures var t := MergeFields(gson, src, fields, target).0;
        fields[i].name in t && t[fields[i].name] == values[fields[i].name]
    {
      MergeFieldsAt(gson, src, fields, target, i);
    }
    forall k | k !in ConfigNames(fields)
      ensures var t := MergeFields(gson, src, fields, target).0;
        (k in t <==> k in target) && (k in t ==> t[k] == target[k])
    {
      MergeFieldsFrame(gson, src, fields, target, k);
    }
  }

  // ---------------------------------------------------------------------------
  // Flat and wrapped documents

  /** `wrapped` is `flat` with each member's element moved into an object under "value" (any other members, e.g. "comment", allowed). */
  predicate WrapsOf(wrapped: seq<Member>, flat: seq<Member>)
  {
    && |wrapped| == |flat|
    && forall i :: 0 <= i < |flat| ==>
         wrapped[i].0 == flat[i].0 && wrapped[i].1.Obj? && Get(wrapped[i].1.members, "value") == Some(flat[i].1)
  }

  /** An element the unwrapping rule replaces by its "value" member: an object that has one. */
  predicate Unwrappable(n: Node)
  {
    n.Obj? && Has(n.members, "value")
  }

  lemma {:induction false} WrapsOfGet(wrapped: seq<Member>, flat: seq<Member>, k: string)
    requires WrapsOf(wrapped, flat)
    ensures Get(wrapped, k).None? <==> Get(flat, k).None?
    ensures Get(wrapped, k).Some? ==> Unwrap(Get(wrapped, k).value) == Get(flat, k).value
  {
    if flat != [] {
      assert WrapsOf(wrapped[1..], flat[1..]) by {
        forall i | 0 <= i < |flat[1..]|
          ensures wrapped[1..][i].0 == flat[1..][i].0 && wrapped[1..][i].1.Obj?
               && Get(wrapped[1..][i].1.members, "value") == Some(flat[1..][i].1)
        {
          assert wrapped[1..][i] == wrapped[i + 1] && flat[1..][i] == flat[i + 1];
        }
      }
      WrapsOfGet(wrapped[1..], flat[1..], k);
    }
  }

  /** Merging depends on the document only through what each field decodes to. */
  lemma {:induction false} MergeFieldsCongruent<V>(gson: Gson<V>, src1: seq<Member>, src2: seq<Member>, fields: seq<Field>, target: map<string, V>)
    requires forall i :: 0 <= i < |fields| ==> Decoded(gson, src1, fields[i]) == Decoded(gson, src2, fields[i])
    ensures MergeFields(gson, src1, fields, target) == MergeFields(gson, src2, fields, target)
  {
    if fields != [] {
      var n := |fields| - 1;
      forall i | 0 <= i < n
        ensures Decoded(gson, src1, fields[..n][i]) == Decoded(gson, src2, fields[..n][i])
      {
        assert fields[..n][i] == fields[i];
      }
      MergeFieldsCongruent(gson, src1, src2, fields[..n], target);
    }
  }

  /**
   * Flat compatibility: a document holding each element directly merges exactly
   * like the same document in the wrapped form, provided no flat element is
   * itself an object with a "value" member (such an element would be unwrapped).
   */
  lemma FlatMatchesWrapped<V>(gson: Gson<V>, flat: seq<Member>, wrapped: seq<Member>, fields: seq<Field>, target: map<string, V>)
    requires WrapsOf(wrapped, flat)
    requires forall i :: 0 <= i < |flat| ==> !Unwrappable(flat[i].1)
    ensures Merge(gson, Present(Some(Obj(wrapped))), fields, target) == Merge(gson, Present(Some(Obj(flat))), fields, target)
  {
    forall i | 0 <= i < |fields|
      ensures Decoded(gson, wrapped, fields[i]) == Decoded(gson, flat, fields[i])
    {
      var k := fields[i].name;
      WrapsOfGet(wrapped, flat, k);
      if Get(flat, k).Some? {
        var j :| 0 <= j < |flat| && flat[j] == (k, Get(flat, k).value);
        assert !Unwrappable(flat[j].1);
      }
    }
    MergeFieldsCongruent(gson, wrapped, flat, fields, target);
  }
}

=== FILE: config_base.dfy ===
/**
 * ConfigBase: the state every managed configuration object has (the dirty
 * flag and its own declared fields) and the lifecycle hooks a concrete
 * configuration type supplies.
 *
 * A concrete subclass is represented by the `Hooks` value the object carries:
 * each hook says what the overriding Java method does to the object's fields.
 * `Config`'s methods apply them in place, which is how the subclass's override
 * runs on the instance in Java.
 */
module ConfigBase {
  import opened Wrappers
  import opened Reflection

  /**
   * What `validate(cfg)` leaves behind: the fields of `cfg` after any in-place
   * normalisation, and `Some(other)` when it returned a different instance
   * (holding those field values) instead of `cfg` itself.
   */
  datatype Validation<V> = Validation(inPlace: map<string, V>, replacement: Option<map<string, V>>)

  /** The overridable behaviour of a config type, as functions of its field values. */
  datatype Hooks<!V> = Hooks(
    defaults: map<string, V>,                                        // resetDefaults
    validate: map<string, V> -> Validation<V>,                       // validate(this)
    copyFrom: (map<string, V>, map<string, V>) -> map<string, V>,    // this.copyFrom(other)
    afterLoad: map<string, V> -> map<string, V>,
    beforeSave: map<string, V> -> map<string, V>)

  /** ConfigBase.validate: hand back the very instance it was given. */
  function DefaultValidate<V>(cfg: map<string, V>): Validation<V>
  {
    Validation(cfg, None)
  }

  /** ConfigBase.afterLoad and ConfigBase.beforeSave: do nothing. */
  function NoOp<V>(cfg: map<string, V>): map<string, V>
  {
    cfg
  }

  /** The hooks of a subclass that overrides only the two abstract methods. */
  function BaseHooks<V>(defaults: map<string, V>, copyFrom: (map<string, V>, map<string, V>) -> map<string, V>): Hooks<V>
  {
    Hooks(defaults, DefaultValidate, copyFrom, NoOp, NoOp)
  }

  /** With the base class's own validate, afterLoad and beforeSave, no field changes and no copy is needed. */
  lemma BaseHooksChangeNothing<V>(defaults: map<string, V>, copyFrom: (map<string, V>, map<string, V>) -> map<string, V>, cfg: map<string, V>)
    ensures BaseHooks(defaults, copyFrom).validate(cfg) == Validation(cfg, None)
    ensures BaseHooks(defaults, copyFrom).afterLoad(cfg) == cfg
    ensures BaseHooks(defaults, copyFrom).beforeSave(cfg) == cfg
  {
  }

  class Config<V> {
    /** Set when the in-memory state has changes not yet written (volatile in Java). */
    var dirty: bool
    /** The current value of each declared field, by name. */
    var values: map<string, V>
    /** The declared fields of the object's run-time class. */
    const fields: seq<Field>
    /** The overrides of the object's run-time class. */
    const hooks: Hooks<V>

    /** A new config starts dirty. */
    constructor (fields: seq<Field>, hooks: Hooks<V>, initial: map<string, V>)
      ensures this.fields == fields && this.hooks == hooks
      ensures values == initial
      ensures dirty
    {
      this.fields := fields;
      this.hooks := hooks;
      values := initial;
      dirty := true;
    }

    method MarkDirty()
      modifies this`dirty
      ensures dirty
    {
      dirty := true;
    }

    method MarkClean()
      modifies this`dirty
      ensures !dirty
    {
      dirty := false;
    }

    method IsDirty() returns (d: bool)
      ensures d == dirty
    {
      d := dirty;
    }

    method ResetDefaults()
      modifies this`values
      ensures values == hooks.defaults
    {
      values := hooks.defaults;
    }

    /** `validate(this)`; returns the other instance's fields when it hands back a different object. */
    method Validate() returns (replacement: Option<map<string, V>>)
      modifies this`values
      ensures values == hooks.validate(old(values)).inPlace
      ensures replacement == hooks.validate(old(values)).replacement
    {
      var v := hooks.validate(values);
      values := v.inPlace;
      replacement := v.replacement;
    }

    method CopyFrom(other: map<string, V>)
      modifies this`values
      ensures values == hooks.copyFrom(old(values), other)
    {
      values := hooks.copyFrom(values, other);
    }

    method AfterLoad()
      modifies this`values
      ensures values == hooks.afterLoad(old(values))
    {
      values := hooks.afterLoad(values);
    }

    method BeforeSave()
      modifies this`values
      ensures values == hooks.beforeSave(old(values))
    {
      values := hooks.beforeSave(values);
    }
  }
}

=== FILE: config_codec.dfy ===
/**
 * ConfigCodec: what the manager needs from a codec (merge, write, file
 * extension). A codec is either the nested-comment JSON codec or a codec the
 * application supplies, given by what its three operations compute.
 */
module ConfigCodec {
  import opened Json
  import opened Reflection
  import opened ConfigBase
  import N = GsonNestedCommentCodec

  datatype Codec<!V> =
    | NestedComment(gson: N.Gson<V>)
    | Custom(
        merge: (N.FileState, seq<Field>, map<string, V>) -> (N.MergeResult, map<string, V>),
        document: (seq<Field>, map<string, V>) -> Node,
        extension: string)
  {
    function DefaultExtension(): string
    {
      match this
      case NestedComment(_) => N.DefaultExtension()
      case Custom(_, _, ext) => ext
    }

    /** mergeInto: the result flags and the target's field values afterwards. */
    function Merge(file: N.FileState, fields: seq<Field>, values: map<string, V>): (N.MergeResult, map<string, V>)
    {
      match this
      case NestedComment(gson) => N.Merge(gson, file, fields, values)
      case Custom(merge, _, _) => merge(file, fields, values)
    }

    /** The document `write` puts in the file. */
    function Document(fields: seq<Field>, values: map<string, V>): Node
    {
      match this
      case NestedComment(gson) => N.Document(gson, fields, values)
      case Custom(_, document, _) => document(fields, values)
    }
  }

  method MergeInto<V>(codec: Codec<V>, file: N.FileState, target: Config<V>) returns (r: N.MergeResult)
    modifies target`values
    ensures (r, target.values) == codec.Merge(file, target.fields, old(target.values))
  {
    match codec
    case NestedComment(gson) =>
      r := N.MergeInto(gson, file, target);
    case Custom(merge, _, _) =>
      var (res, values) := merge(file, target.fields, target.values);
      target.values := values;
      r := res;
  }

  method Write<V>(codec: Codec<V>, instance: Config<V>) returns (doc: Node)
    ensures doc == codec.Document(instance.fields, instance.values)
  {
    match codec
    case NestedComment(gson) =>
      doc := N.Write(gson, instance);
    case Custom(_, document, _) =>
      doc := document(instance.fields, instance.values);
  }
}

=== FILE: config_manager.dfy ===
/**
 * ConfigManager: registers configuration objects under file names, loads
 * them (reset, merge, validate, copy back, rewrite when needed) and saves them.
 *
 * The file system is reduced to what the decisions depend on: what reading a
 * path gives (`FileState`), whether a save's I/O succeeds (`IoResult`), and
 * `files`, the documents this manager has moved into place, by path.
 */
module ConfigManager {
  import opened Wrappers
  import opened Json
  import opened Reflection
  import opened ConfigBase
  import opened ConfigCodec
  import N = GsonNestedCommentCodec

  datatype AutoLoadPolicy = Eager | Manual

  /** A file-system path as its sequence of name elements. */
  type Path = seq<string>

  /** Path.resolve for a single file name. */
  function Resolve(dir: Path, name: string): Path
  {
    dir + [name]
  }

  /** String.endsWith */
  predicate EndsWith(s: string, suffix: string)
  {
    |suffix| <= |s| && s[|s| - |suffix|..] == suffix
  }

  /**
   * The file name `filePath` resolves: the extension is appended unless the
   * name already ends with it.
   */
  function FileName(fileName: string, extension: string): string
  {
    if EndsWith(fileName, extension) then fileName else fileName + extension
  }

  /**
   * The resolved name always carries the extension, starts with the name as
   * given, and equals it exactly when it already ended with the extension.
   */
  lemma FileNameSpec(fileName: string, extension: string)
    ensures var fn := FileName(fileName, extension);
      && EndsWith(fn, extension)
      && |fileName| <= |fn| && fn[..|fileName|] == fileName
      && (fn == fileName <==> EndsWith(fileName, extension))
  {
    if !EndsWith(fileName, extension) {
      assert (fileName + extension)[|fileName|..] == extension;
    }
  }

  /** Applying filePath's naming rule twice changes nothing. */
  lemma FileNameIdempotent(fileName: string, extension: string)
    ensures FileName(FileName(fileName, extension), extension) == FileName(fileName, extension)
  {
  }

  /**
   * Every name without the extension shares its file with the same name
   * carrying the extension ("settings" and "settings.json"), although the two
   * are different registration names.
   */
  lemma FileNameCollision(name: string, extension: string)
    requires |extension| > 0 && !EndsWith(name, extension)
    ensures name != name + extension
    ensures FileName(name, extension) == FileName(name + extension, extension)
  {
    assert EndsWith(name + extension, extension) by {
      assert (name + extension)[|name|..] == extension;
    }
  }

  /** A registered configuration (the record ConfigManager.Entry; its fields are never null here). */
  datatype Entry<V> = Entry(fileName: string, config: Config<V>, extension: string)

  /**
   * How a save's I/O goes: it succeeds, Files.createDirectories throws an
   * IOException, or a later step (createTempFile, the codec's write, or both
   * moves) throws an IOException. Only IOExceptions are caught and logged.
   */
  datatype IoResult = Done | DirectoryFails | WriteFails

  /** What the outside world answers, per path, during a bulk load or save. */
  datatype Environment = Environment(read: Path -> N.FileState, io: Path -> IoResult, fails: Path -> bool)

  /** One config's field values and dirty flag, together with the documents in place. */
  datatype State<V> = State(values: map<string, V>, dirty: bool, files: map<Path, Node>)

  /** `load` rewrites the file when it was absent, had missing keys, or could not be parsed. */
  predicate NeedsRewrite(r: N.MergeResult)
  {
    !r.fileExists || r.missingKeys || r.parseError
  }

  /** The fields after `validate`, copied back with copyFrom when validate returned another instance. */
  function Validated<V>(hooks: Hooks<V>, values: map<string, V>): map<string, V>
  {
    var v := hooks.validate(values);
    match v.replacement
    case None => v.inPlace
    case Some(other) => hooks.copyFrom(v.inPlace, other)
  }

  /** `save`: beforeSave runs once the directory exists; the document is in place and the config clean only when every step succeeds. */
  function Saved<V>(codec: Codec<V>, fields: seq<Field>, hooks: Hooks<V>, path: Path, s: State<V>, io: IoResult): State<V>
  {
    match io
    case DirectoryFails => s
    case WriteFails => s.(values := hooks.beforeSave(s.values))
    case Done =>
      var v := hooks.beforeSave(s.values);
      State(v, false, s.files[path := codec.Document(fields, v)])
  }

  /**
   * `load`. `fails` stands for an exception escaping mergeInto, validate,
   * copyFrom or afterLoad: the catch block resets the defaults again (wiping
   * whatever the try block did to the fields) and saves, and markClean is
   * never reached.
   */
  function Loaded<V>(codec: Codec<V>, fields: seq<Field>, hooks: Hooks<V>, path: Path, s: State<V>,
                     file: N.FileState, fails: bool, io: IoResult): State<V>
  {
    if fails then Saved(codec, fields, hooks, path, s.(values := hooks.defaults), io)
    else
      var (r, merged) := codec.Merge(file, fields, hooks.defaults);
      var loaded := State(hooks.afterLoad(Validated(hooks, merged)), false, s.files);
      if NeedsRewrite(r) then Saved(codec, fields, hooks, path, loaded, io) else loaded
  }

  /** The document store agrees at `p`. */
  predicate SameAt(f1: map<Path, Node>, f2: map<Path, Node>, p: Path)
  {
    (p in f1 <==> p in f2) && (p in f1 ==> f1[p] == f2[p])
  }

  // ---------------------------------------------------------------------------
  // Properties of load and save

  /** Neither save nor load ever sets the dirty flag. */
  lemma LoadNeverDirties<V>(codec: Codec<V>, fields: seq<Field>, hooks: Hooks<V>, path: Path, s: State<V>,
                            file: N.FileState, fails: bool, io: IoResult)
    ensures !s.dirty ==> !Saved(codec, fields, hooks, path, s, io).dirty
    ensures !s.dirty ==> !Loaded(codec, fields, hooks, path, s, file, fails, io).dirty
  {
  }

  /**
   * A load ends clean unless an exception forced a regeneration whose save then
   * failed; in particular a rewrite that fails after a successful merge leaves
   * the config clean, so saveDirty will not retry it.
   */
  lemma LoadEndsClean<V>(codec: Codec<V>, fields: seq<Field>, hooks: Hooks<V>, path: Path, s: State<V>,
                         file: N.FileState, fails: bool, io: IoResult)
    ensures !fails || io == Done ==> !Loaded(codec, fields, hooks, path, s, file, fails, io).dirty
    ensures fails && io != Done ==> Loaded(codec, fields, hooks, path, s, file, fails, io).dirty == s.dirty
  {
  }

  /**
   * The rewrite decision: without an exception, a load touches the store only
   * when the merge result asks for a rewrite, and then (if the I/O succeeds)
   * puts the loaded values' document at the config's path.
   */
  lemma LoadRewrite<V>(codec: Codec<V>, fields: seq<Field>, hooks: Hooks<V>, path: Path, s: State<V>,
                       file: N.FileState, io: IoResult)
    ensures var r := codec.Merge(file, fields, hooks.defaults).0;
      var l := Loaded(codec, fields, hooks, path, s, file, false, io);
      && (!NeedsRewrite(r) ==> l.files == s.files)
      && (NeedsRewrite(r) && io == Done ==> l.files == s.files[path := codec.Document(fields, l.values)])
      && (NeedsRewrite(r) && io != Done ==> l.files == s.files)
  {
  }

  /** After an exception, load regenerates: defaults (through beforeSave) are what is saved. */
  lemma LoadRegenerates<V>(codec: Codec<V>, fields: seq<Field>, hooks: Hooks<V>, path: Path, s: State<V>,
                           file: N.FileState, io: IoResult)
    ensures var l := Loaded(codec, fields, hooks, path, s, file, true, io);
      && (io != DirectoryFails ==> l.values == hooks.beforeSave(hooks.defaults))
      && (io == DirectoryFails ==> l.values == hooks.defaults)
      && (io == Done ==> l.files == s.files[path := codec.Document(fields, l.values)])
  {
  }

  /** Load resets before it merges: the fields held before the load have no influence on the outcome. */
  lemma LoadIgnoresPriorValues<V>(codec: Codec<V>, fields: seq<Field>, hooks: Hooks<V>, path: Path,
                                  s1: State<V>, s2: State<V>, file: N.FileState, fails: bool, io: IoResult)
    requires s1.dirty == s2.dirty && s1.files == s2.files
    ensures Loaded(codec, fields, hooks, path, s1, file, fails, io) == Loaded(codec, fields, hooks, path, s2, file, fails, io)
  {
  }

  /** Save touches only its own path, and what it does there depends only on the store at that path. */
  lemma SaveLocal<V>(codec: Codec<V>, fields: seq<Field>, hooks: Hooks<V>, path: Path, s1: State<V>, s2: State<V>, io: IoResult)
    requires s1.values == s2.values && s1.dirty == s2.dirty && SameAt(s1.files, s2.files, path)
    ensures var v1 := Saved(codec, fields, hooks, path, s1, io);
      var v2 := Saved(codec, fields, hooks, path, s2, io);
      && v1.values == v2.values && v1.dirty == v2.dirty && SameAt(v1.files, v2.files, path)
      && (forall p :: p != path ==> SameAt(v1.files, s1.files, p))
  {
  }

  /** Load touches only its own path, and what it does there depends only on the store at that path. */
  lemma LoadLocal<V>(codec: Codec<V>, fields: seq<Field>, hooks: Hooks<V>, path: Path, s1: State<V>, s2: State<V>,
                     file: N.FileState, fails: bool, io: IoResult)
    requires s1.values == s2.values && s1.dirty == s2.dirty && SameAt(s1.files, s2.files, path)
    ensures var l1 := Loaded(codec, fields, hooks, path, s1, file, fails, io);
      var l2 := Loaded(codec, fields, hooks, path, s2, file, fails, io);
      && l1.values == l2.values && l1.dirty == l2.dirty && SameAt(l1.files, l2.files, path)
      && (forall p :: p != path ==> SameAt(l1.files, s1.files, p))
  {
    if fails {
      SaveLocal(codec, fields, hooks, path, s1.(values := hooks.defaults), s2.(values := hooks.defaults), io);
    } else {
      var (r, merged) := codec.Merge(file, fields, hooks.defaults);
      var v := hooks.afterLoad(Validated(hooks, merged));
      SaveLocal(codec, fields, hooks, path, State(v, false, s1.files), State(v, false, s2.files), io);
    }
  }

  /** With the nested-comment codec the rewrite decision is exactly the `missingKeys` flag. */
  lemma NestedRewriteIffMissing<V>(gson: N.Gson<V>, file: N.FileState, fields: seq<Field>, values: map<string, V>)
    ensures NeedsRewrite(N.Merge(gson, file, fields, values).0) <==> N.Merge(gson, file, fields, values).0.missingKeys
  {
    N.MergeOutcome(gson, file, fields, values);
  }

  /**
   * A document from which every exposed field decodes does not trigger a
   * rewrite: the load leaves the store alone and the config clean.
   */
  lemma LoadCompleteDocument<V>(gson: N.Gson<V>, fields: seq<Field>, hooks: Hooks<V>, path: Path, s: State<V>,
                                members: seq<Member>, io: IoResult)
    requires forall i :: 0 <= i < |fields| ==> !N.FieldFails(gson, members, fields[i])
    ensures var l := Loaded(NestedComment(gson), fields, hooks, path, s, N.Present(Some(Obj(members))), false, io);
      l.files == s.files && !l.dirty
  {
    N.MergeFieldsMissing(gson, members, fields, hooks.defaults);
  }

  class Manager<V> {
    const rootDir: Path
    const codec: Codec<V>
    const policy: AutoLoadPolicy
    /** Registered configs by file name. */
    var entries: map<string, Entry<V>>
    /** The documents this manager has moved into place, by path. */
    var files: map<Path, Node>
    /** Every config object registered so far. */
    ghost var configs: set<Config<V>>

    ghost predicate Valid()
      reads this`entries, this`configs
    {
      forall k :: k in entries ==>
        entries[k].fileName == k && entries[k].extension == codec.DefaultExtension() && entries[k].config in configs
    }

    ghost function EntryPaths(): set<Path>
      reads this`entries
    {
      set k | k in entries :: PathOf(entries[k])
    }

    /** The names whose config is currently dirty. */
    ghost function DirtyKeys(): set<string>
      reads this`entries, this`configs, configs
      requires Valid()
    {
      set k | k in entries && entries[k].config.dirty
    }

    /** The files of the given entries. */
    ghost function PathsOf(keys: set<string>): set<Path>
      reads this`entries
    {
      set k | k in keys && k in entries :: PathOf(entries[k])
    }

    constructor (rootDir: Path, codec: Codec<V>, policy: AutoLoadPolicy)
      ensures this.rootDir == rootDir && this.codec == codec && this.policy == policy
      ensures entries == map[] && files == map[]
      ensures Valid()
    {
      this.rootDir := rootDir;
      this.codec := codec;
      this.policy := policy;
      entries := map[];
      configs := {};
      files := map[];
    }

    /** filePath */
    function FilePath(fileName: string, extension: string): Path
    {
      Resolve(rootDir, FileName(fileName, extension))
    }

    function PathOf(e: Entry<V>): Path
    {
      FilePath(e.fileName, e.extension)
    }

    /**
     * For base file names (single path elements), every registered config's
     * file lies directly in the root directory, is named after its
     * registration name and carries the codec's extension (".json" for the
     * nested-comment codec).
     */
    lemma EntryPathsInRoot()
      requires Valid()
      ensures forall k :: k in entries ==>
        var p := PathOf(entries[k]);
        && |p| == |rootDir| + 1 && p[..|rootDir|] == rootDir
        && EndsWith(p[|rootDir|], codec.DefaultExtension())
        && |k| <= |p[|rootDir|]| && p[|rootDir|][..|k|] == k
      ensures codec.NestedComment? ==> forall k :: k in entries ==> EndsWith(PathOf(entries[k])[|rootDir|], ".json")
    {
      forall k | k in entries
        ensures var p := PathOf(entries[k]);
          && |p| == |rootDir| + 1 && p[..|rootDir|] == rootDir
          && EndsWith(p[|rootDir|], codec.DefaultExtension())
          && |k| <= |p[|rootDir|]| && p[|rootDir|][..|k|] == k
      {
        FileNameSpec(k, codec.DefaultExtension());
      }
    }

    method Save(e: Entry<V>, io: IoResult)
      modifies this`files, e.config
      ensures var v := Saved(codec, e.config.fields, e.config.hooks, PathOf(e), State(old(e.config.values), old(e.config.dirty), old(files)), io);
        e.config.values == v.values && e.config.dirty == v.dirty && files == v.files
      ensures io == Done || !old(e.config.dirty) ==> !e.config.dirty
      ensures forall p :: p != PathOf(e) ==> SameAt(files, old(files), p)
    {
      var path := FilePath(e.fileName, e.extension);
      var config := e.config;
      if io == DirectoryFails {
        return;  // createDirectories threw an IOException: logged, not rethrown
      }
      config.BeforeSave();
      if io == WriteFails {
        return;  // an IOException from createTempFile, write or move: logged, not rethrown
      }
      var doc := ConfigCodec.Write(codec, config);
      files := files[path := doc];
      config.MarkClean();
    }

    method Load(e: Entry<V>, file: N.FileState, fails: bool, io: IoResult)
      modifies this`files, e.config
      ensures State(e.config.values, e.config.dirty, files)
           == Loaded(codec, e.config.fields, e.config.hooks, PathOf(e), State(old(e.config.values), old(e.config.dirty), old(files)), file, fails, io)
      ensures !fails || io == Done || !old(e.config.dirty) ==> !e.config.dirty
      ensures forall p :: p != PathOf(e) ==> SameAt(files, old(files), p)
    {
      var config := e.config;
      config.ResetDefaults();
      if fails {
        // catch block: regenerate defaults and save them
        config.ResetDefaults();
        Save(e, io);
        return;
      }
      var r := LoadFields(config, file);
      if NeedsRewrite(r) {
        Save(e, io);
      }
    }

    /** The try block of load: mergeInto, validate (copying back a returned instance), afterLoad and markClean. */
    method LoadFields(config: Config<V>, file: N.FileState) returns (r: N.MergeResult)
      modifies config
      ensures var (res, merged) := codec.Merge(file, config.fields, old(config.values));
        r == res && config.values == config.hooks.afterLoad(Validated(config.hooks, merged)) && !config.dirty
    {
      r := ConfigCodec.MergeInto(codec, file, config);
      var replacement := config.Validate();
      if replacement.Some? {
        config.CopyFrom(replacement.value);
      }
      config.AfterLoad();
      config.MarkClean();
    }

    /**
     * register: a name already taken is refused (IllegalStateException) and
     * nothing changes; otherwise the entry is added and, under the EAGER
     * policy, loaded at once. The same config object is handed back.
     */
    method Register(fileName: string, cfg: Config<V>, file: N.FileState, fails: bool, io: IoResult)
      returns (r: Result<Config<V>, string>)
      requires Valid()
      modifies this`entries, this`configs, this`files, cfg
      ensures Valid()
      ensures fileName in old(entries) ==>
        && r == Failure("Duplicate config: " + fileName)
        && entries == old(entries) && files == old(files) && unchanged(cfg)
      ensures fileName !in old(entries) ==>
        && r == Success(cfg)
        && entries == old(entries)[fileName := Entry(fileName, cfg, codec.DefaultExtension())]
      ensures fileName !in old(entries) && policy == Eager ==>
        State(cfg.values, cfg.dirty, files)
        == Loaded(codec, cfg.fields, cfg.hooks, FilePath(fileName, codec.DefaultExtension()),
                  State(old(cfg.values), old(cfg.dirty), old(files)), file, fails, io)
      ensures fileName !in old(entries) && policy == Manual ==> files == old(files) && unchanged(cfg)
    {
      var e := Entry(fileName, cfg, codec.DefaultExtension());
      if fileName in entries {
        return Failure("Duplicate config: " + fileName);
      }
      entries := entries[fileName := e];
      configs := configs + {cfg};
      if policy == Eager {
        Load(e, file, fails, io);
      }
      r := Success(cfg);
    }

    /**
     * loadAll: loads every entry of a snapshot of the registry, in no
     * particular order. A config ends clean unless its load ran into an
     * exception and the regeneration's save then failed (or it was dirty and
     * never touched); no file outside the registered paths changes.
     */
    method LoadAll(env: Environment)
      requires Valid()
      modifies this`files, configs
      ensures forall k :: k in entries && (!env.fails(PathOf(entries[k])) || env.io(PathOf(entries[k])) == Done) ==>
        !entries[k].config.dirty
      ensures forall p :: p !in EntryPaths() ==> SameAt(files, old(files), p)
    {
      var rest := entries.Keys;
      while rest != {}
        invariant rest <= entries.Keys
        invariant forall k :: k in entries && k !in rest && (!env.fails(PathOf(entries[k])) || env.io(PathOf(entries[k])) == Done) ==>
          !entries[k].config.dirty
        invariant forall p :: p !in EntryPaths() ==> SameAt(files, old(files), p)
        decreases rest
      {
        var k :| k in rest;
        var e := entries[k];
        var path := PathOf(e);
        Load(e, env.read(path), env.fails(path), env.io(path));
        rest := rest - {k};
      }
    }

    /**
     * saveAll: saves every entry of a snapshot of the registry, in no
     * particular order. Every config whose save succeeded ends clean; no file
     * outside the registered paths changes.
     */
    method SaveAll(env: Environment)
      requires Valid()
      modifies this`files, configs
      ensures forall k :: k in entries && env.io(PathOf(entries[k])) == Done ==> !entries[k].config.dirty
      ensures forall p :: p !in EntryPaths() ==> SameAt(files, old(files), p)
    {
      var rest := entries.Keys;
      while rest != {}
        invariant rest <= entries.Keys
        invariant forall k :: k in entries && k !in rest && env.io(PathOf(entries[k])) == Done ==> !entries[k].config.dirty
        invariant forall p :: p !in EntryPaths() ==> SameAt(files, old(files), p)
        decreases rest
      {
        var k :| k in rest;
        var e := entries[k];
        Save(e, env.io(PathOf(e)));
        rest := rest - {k};
      }
    }

    /** One step of saveDirty: the entry is saved when its config is dirty, and left alone otherwise. */
    method SaveIfDirty(k: string, io: IoResult)
      requires Valid() && k in entries
      modifies this`files, entries[k].config
      ensures forall k' :: k' in entries && !old(entries[k'].config.dirty) ==>
        entries[k'].config.values == old(entries[k'].config.values) && !entries[k'].config.dirty
      ensures io == Done ==> !entries[k].config.dirty
      ensures old(entries[k].config.dirty) ==>
        var e := entries[k];
        var v := Saved(codec, e.config.fields, e.config.hooks, PathOf(e), State(old(e.config.values), old(e.config.dirty), old(files)), io);
        e.config.values == v.values && e.config.dirty == v.dirty && files == v.files
      ensures !old(entries[k].config.dirty) ==> files == old(files)
    {
      var e := entries[k];
      var dirty := e.config.IsDirty();
      if dirty {
        Save(e, io);
      }
    }

    /**
     * saveDirty: walks a snapshot of the registry and saves an entry when its
     * config is dirty at the moment it is reached. Configs clean at the start
     * keep their fields and stay clean; dirty ones whose save succeeds end
     * clean; a file changes only if some entry using it was dirty at the start.
     */
    method SaveDirty(env: Environment)
      requires Valid()
      modifies this`files, configs
      ensures forall k :: k in entries && !old(entries[k].config.dirty) ==>
        entries[k].config.values == old(entries[k].config.values) && !entries[k].config.dirty
      ensures forall k :: k in entries && env.io(PathOf(entries[k])) == Done ==> !entries[k].config.dirty
      ensures forall p :: p !in PathsOf(old(DirtyKeys())) ==> SameAt(files, old(files), p)
    {
      ghost var dirty0 := DirtyKeys();
      var rest := entries.Keys;
      while rest != {}
        invariant rest <= entries.Keys
        invariant forall k :: k in entries && k !in dirty0 ==>
          entries[k].config.values == old(entries[k].config.values) && !entries[k].config.dirty
        invariant forall k :: k in entries && k !in rest && env.io(PathOf(entries[k])) == Done ==> !entries[k].config.dirty
        invariant forall p :: p !in PathsOf(dirty0) ==> SameAt(files, old(files), p)
        decreases rest
      {
        var k :| k in rest;
        SaveIfDirty(k, env.io(PathOf(entries[k])));
        rest := rest - {k};
      }
    }
  }

  /**
   * ConfigManager.Builder. The configuration directory Fabric reports and the
   * Gson instance the default codec creates are passed in.
   */
  class Builder<V> {
    const modId: string
    const defaultGson: N.Gson<V>
    var rootDir: Path
    var codec: Option<Codec<V>>
    var policy: AutoLoadPolicy

    /** The root directory defaults to the mod id under the config directory; loading is eager. */
    constructor (modId: string, configDir: Path, defaultGson: N.Gson<V>)
      ensures this.modId == modId && this.defaultGson == defaultGson
      ensures rootDir == Resolve(configDir, modId) && codec == None && policy == Eager
    {
      this.modId := modId;
      this.defaultGson := defaultGson;
      rootDir := Resolve(configDir, modId);
      codec := None;
      policy := Eager;
    }

    method SetRootDir(dir: Path) returns (b: Builder<V>)
      modifies this`rootDir
      ensures rootDir == dir && b == this
    {
      rootDir := dir;
      b := this;
    }

    method SetCodec(c: Codec<V>) returns (b: Builder<V>)
      modifies this`codec
      ensures codec == Some(c) && b == this
    {
      codec := Some(c);
      b := this;
    }

    method SetPolicy(p: AutoLoadPolicy) returns (b: Builder<V>)
      modifies this`policy
      ensures policy == p && b == this
    {
      policy := p;
      b := this;
    }

    /** build: a fresh, empty manager with the chosen settings; the nested-comment codec when none was set. */
    method Build() returns (m: Manager<V>)
      ensures fresh(m)
      ensures m.rootDir == rootDir && m.policy == policy
      ensures m.codec == (if codec.Some? then codec.value else NestedComment(defaultGson))
      ensures m.entries == map[] && m.files == map[] && m.Valid()
    {
      var c := if codec.Some? then codec.value else NestedComment(defaultGson);
      m := new Manager(rootDir, c, policy);
    }
  }
}

=== FILE: example_config.dfy ===
/**
 * ExampleConfig: the sample configuration shipped with the library. Three
 * exposed fields (a commented String, a commented int documented as 1..100,
 * and an uncommented ExampleObject), the defaults resetDefaults installs, a
 * copyFrom that copies all three, and a validate that puts an out-of-range
 * integer back to its default in place.
 */
module ExampleConfig {
  import opened Wrappers
  import opened Json
  import opened Reflection
  import opened ConfigBase
  import opened ConfigCodec
  import N = GsonNestedCommentCodec
  import M = ConfigManager

  /** ExampleObject: a name and a number, both exposed. */
  datatype ExampleObject = ExampleObject(name: string, value: int)

  /** A value one of ExampleConfig's fields can hold. */
  datatype Value = StringValue(s: string) | IntValue(i: int) | ObjectValue(o: ExampleObject)

  const SomeString: string := "someString"
  const SomeInt: string := "someInt"
  const SomeObject: string := "someObject"

  /** The declared fields, in declaration order: all three are exposed instance fields. */
  function Fields(): (fs: seq<Field>)
    ensures DistinctNames(fs)
    ensures forall i :: 0 <= i < |fs| ==> !N.IsNotConfigField(fs[i])
    ensures N.ConfigNames(fs) == {SomeString, SomeInt, SomeObject}
  {
    var fs := [
      Field(SomeString, "java.lang.String", false, false, false, true, Some("This is a String value.")),
      Field(SomeInt, "int", false, false, false, true, Some("This is an Integer value. (1..100)")),
      Field(SomeObject, "net.ninjadev.ninjaconfig.example.ExampleObject", false, false, false, true, None)
    ];
    assert fs[0].name == SomeString && fs[1].name == SomeInt && fs[2].name == SomeObject;
    fs
  }

  /** someInt holds an integer within the documented range 1..100. */
  predicate InRange(cfg: map<string, Value>)
  {
    SomeInt in cfg && cfg[SomeInt].IntValue? && 1 <= cfg[SomeInt].i <= 100
  }

  /** resetDefaults */
  function Defaults(): (d: map<string, Value>)
    ensures d.Keys == {SomeString, SomeInt, SomeObject}
    ensures InRange(d)
  {
    map[SomeString := StringValue("yourModId"),
        SomeInt := IntValue(15),
        SomeObject := ObjectValue(ExampleObject("defaultName", 42))]
  }

  /** copyFrom: the three fields take the other instance's values; nothing else changes. */
  function CopyFrom(self: map<string, Value>, other: map<string, Value>): (r: map<string, Value>)
    ensures forall k :: k in {SomeString, SomeInt, SomeObject} && k in other ==> k in r && r[k] == other[k]
    ensures forall k :: (k !in {SomeString, SomeInt, SomeObject} || k !in other) ==>
      (k in r <==> k in self) && (k in r ==> r[k] == self[k])
  {
    self + map k | k in other && k in {SomeString, SomeInt, SomeObject} :: other[k]
  }

  /**
   * validate: an integer outside 1..100 is reset to 15 on the instance itself,
   * and the same instance is handed back, so no copy follows.
   */
  function Validate(cfg: map<string, Value>): (r: Validation<Value>)
    ensures r.replacement == None
    ensures SomeInt in cfg && cfg[SomeInt].IntValue? ==> InRange(r.inPlace)
    ensures InRange(cfg) ==> r.inPlace == cfg
    ensures forall k :: k != SomeInt ==> (k in r.inPlace <==> k in cfg) && (k in cfg ==> r.inPlace[k] == cfg[k])
  {
    if SomeInt in cfg && cfg[SomeInt].IntValue? && (cfg[SomeInt].i < 1 || cfg[SomeInt].i > 100) then
      DefaultValidate(cfg[SomeInt := IntValue(15)])
    else
      DefaultValidate(cfg)
  }

  /** The overrides of ExampleConfig; afterLoad only logs, and beforeSave is inherited. */
  function ExampleHooks(): Hooks<Value>
  {
    Hooks(Defaults(), Validate, CopyFrom, NoOp, NoOp)
  }

  /** A Gson that decodes the int field only to integers, whatever the document holds. */
  ghost predicate IntTyped(gson: N.Gson<Value>)
  {
    forall n :: gson.fromJson(n, Fields()[1]).Some? ==> gson.fromJson(n, Fields()[1]).value.IntValue?
  }

  /**
   * Whatever the file holds, whether the load throws and whether its save
   * succeeds, an ExampleConfig ends every load with someInt in 1..100.
   */
  lemma LoadKeepsRange(gson: N.Gson<Value>, path: M.Path, s: M.State<Value>, file: N.FileState, fails: bool, io: M.IoResult)
    requires IntTyped(gson)
    ensures InRange(M.Loaded(NestedComment(gson), Fields(), ExampleHooks(), path, s, file, fails, io).values)
  {
    var fs, h := Fields(), ExampleHooks();
    if !fails {
      var (r, merged) := N.Merge(gson, file, fs, h.defaults);
      assert SomeInt in merged && merged[SomeInt].IntValue? by {
        if file.Present? && file.parsed.Some? && file.parsed.value.Obj? {
          N.MergeFieldsAt(gson, file.parsed.value.members, fs, h.defaults, 1);
        }
      }
    }
  }

  /** The codec writes the three fields, in declaration order. */
  lemma WrittenKeys(gson: N.Gson<Value>, values: map<string, Value>)
    requires values.Keys == {SomeString, SomeInt, SomeObject}
    ensures Keys(N.WriteMembers(gson, Fields(), values)) == [SomeString, SomeInt, SomeObject]
  {
    var fs := Fields();
    N.WriteKeys(gson, fs, values);
    assert N.WrittenNames(fs[..1], values) == [SomeString] by {
      assert fs[..1][..0] == [];
    }
    assert N.WrittenNames(fs[..2], values) == [SomeString, SomeInt] by {
      assert fs[..2][..1] == fs[..1];
    }
  }

  /**
   * Every field is written wrapped; the two commented fields carry their
   * comment and someObject, which has no @Comment, carries none.
   */
  lemma WrittenWrappers(gson: N.Gson<Value>, values: map<string, Value>)
    requires values.Keys == {SomeString, SomeInt, SomeObject}
    ensures var ms := N.WriteMembers(gson, Fields(), values);
      && Get(ms, SomeString) == Some(Obj([("value", gson.toJsonTree(values[SomeString])), ("comment", Str("This is a String value."))]))
      && Get(ms, SomeInt) == Some(Obj([("value", gson.toJsonTree(values[SomeInt])), ("comment", Str("This is an Integer value. (1..100)"))]))
      && Get(ms, SomeObject) == Some(Obj([("value", gson.toJsonTree(values[SomeObject]))]))
  {
    var fs := Fields();
    assert N.HasComment(fs[0]) by { assert !N.IsWhitespace(fs[0].comment.value[0]); }
    assert N.HasComment(fs[1]) by { assert !N.IsWhitespace(fs[1].comment.value[0]); }
    assert |fs| == 3 && fs[0].name == SomeString && fs[1].name == SomeInt && fs[2].name == SomeObject;
    N.WriteGetField(gson, fs, values, 0);
    N.WriteGetField(gson, fs, values, 1);
    N.WriteGetField(gson, fs, values, 2);
    var x, y := gson.toJsonTree(values[SomeString]), gson.toJsonTree(values[SomeInt]);
    assert [("value", x)] + [("comment", Str("This is a String value."))]
        == [("value", x), ("comment", Str("This is a String value."))];
    assert [("value", y)] + [("comment", Str("This is an Integer value. (1..100)"))]
        == [("value", y), ("comment", Str("This is an Integer value. (1..100)"))];
    assert [("value", gson.toJsonTree(values[SomeObject]))] + [] == [("value", gson.toJsonTree(values[SomeObject]))];
  }

  /** The values written for a config, merged onto the defaults, come back exactly and report nothing missing. */
  lemma MergeWritten(gson: N.Gson<Value>, values: map<string, Value>)
    requires values.Keys == {SomeString, SomeInt, SomeObject}
    requires forall i :: 0 <= i < |Fields()| ==>
      gson.fromJson(gson.toJsonTree(values[Fields()[i].name]), Fields()[i]) == Some(values[Fields()[i].name])
    ensures N.Merge(gson, N.Present(Some(N.Document(gson, Fields(), values))), Fields(), Defaults())
         == (N.MergeResult(true, false, false), values)
  {
    var fs := Fields();
    N.RoundTrip(gson, fs, values, Defaults());
    var (r, t) := N.Merge(gson, N.Present(Some(N.Document(gson, fs, values))), fs, Defaults());
    assert |fs| == 3 && fs[0].name == SomeString && fs[1].name == SomeInt && fs[2].name == SomeObject;
    assert t == values by {
      forall k | k in values ensures k in t && t[k] == values[k] {
        assert k == fs[0].name || k == fs[1].name || k == fs[2].name;
      }
    }
  }

  /**
   * Save then load: when Gson decodes each field's encoding back to the value,
   * loading the document written for in-range values gives exactly those
   * values, needs no rewrite (the store is left alone) and leaves the config clean.
   */
  lemma SaveThenLoad(gson: N.Gson<Value>, values: map<string, Value>, path: M.Path, s: M.State<Value>, io: M.IoResult)
    requires values.Keys == {SomeString, SomeInt, SomeObject} && InRange(values)
    requires forall i :: 0 <= i < |Fields()| ==>
      gson.fromJson(gson.toJsonTree(values[Fields()[i].name]), Fields()[i]) == Some(values[Fields()[i].name])
    ensures var l := M.Loaded(NestedComment(gson), Fields(), ExampleHooks(), path, s,
                              N.Present(Some(N.Document(gson, Fields(), values))), false, io);
      l.values == values && l.files == s.files && !l.dirty
  {
    MergeWritten(gson, values);
  }

  /**
   * A file in the flat layout ({"someObject": {"name": ..., "value": 42}}) is
   * unwrapped like a wrapped one: the object's own "value" member is taken for
   * the field, so Gson is asked to turn the number 42 into an ExampleObject.
   * When it refuses, someObject keeps its default and the load reports the key
   * as missing, which makes load rewrite the file.
   */
  lemma FlatObjectMisread(gson: N.Gson<Value>, name: string, value: int, rest: seq<Member>)
    requires gson.fromJson(Num(value), Fields()[2]).None?
    requires !Has(rest, SomeObject)
    ensures var ms := [(SomeObject, Obj([("name", Str(name)), ("value", Num(value))]))] + rest;
      var (r, t) := N.Merge(gson, N.Present(Some(Obj(ms))), Fields(), Defaults());
      && r.missingKeys && !r.parseError
      && SomeObject in t && t[SomeObject] == ObjectValue(ExampleObject("defaultName", 42))
  {
    var fs := Fields();
    var ms := [(SomeObject, Obj([("name", Str(name)), ("value", Num(value))]))] + rest;
    var raw := Obj([("name", Str(name)), ("value", Num(value))]);
    assert Keys(ms)[0] == SomeObject;
    assert Get(ms, SomeObject) == Some(raw);
    assert Keys(raw.members) == ["name", "value"];
    assert N.Unwrap(raw) == Num(value);
    assert N.FieldFails(gson, ms, fs[2]);
    N.MergeFieldsMissing(gson, ms, fs, Defaults());
    N.MergeFieldsAt(gson, ms, fs, Defaults(), 2);
  }
}

=== FILE: json.dfy ===
/**
 * The JSON tree model the codec works on (Gson's JsonElement family):
 * an object keeps its members in insertion order, as LinkedTreeMap does.
 */
module Json {
  import opened Wrappers

  datatype Node =
    | Null
    | Bool(b: bool)
    | Num(n: int)
    | Str(s: string)
    | Arr(elems: seq<Node>)
    | Obj(members: seq<Member>)

  type Member = (string, Node)

  /** The member names of an object, in order. */
  function Keys(ms: seq<Member>): seq<string>
  {
    seq(|ms|, i requires 0 <= i < |ms| => ms[i].0)
  }

  /** No name occurs twice: what every JsonObject satisfies. */
  predicate UniqueKeys(ms: seq<Member>)
  {
    Distinct(Keys(ms))
  }

  predicate Distinct(ks: seq<string>)
  {
    forall i, j :: 0 <= i < j < |ks| ==> ks[i] != ks[j]
  }

  /** JsonObject.has */
  predicate Has(ms: seq<Member>, key: string)
  {
    key in Keys(ms)
  }

  /** JsonObject.get: the member stored under `key`, if any. */
  function Get(ms: seq<Member>, key: string): (r: Option<Node>)
    ensures r.None? <==> !Has(ms, key)
    ensures r.Some? ==> (key, r.value) in ms
  {
    if ms == [] then None
    else
      assert Keys(ms) == [ms[0].0] + Keys(ms[1..]);
      if ms[0].0 == key then Some(ms[0].1) else Get(ms[1..], key)
  }

  /**
   * JsonObject.add: a name already present keeps its position and gets the new
   * value; a new name is appended.
   */
  function Put(ms: seq<Member>, key: string, v: Node): (r: seq<Member>)
    ensures Get(r, key) == Some(v)
    ensures forall k :: k != key ==> Get(r, k) == Get(ms, k)
  {
    if ms == [] then [(key, v)]
    else if ms[0].0 == key then [(key, v)] + ms[1..]
    else [ms[0]] + Put(ms[1..], key, v)
  }

  /** Adding a new name appends it; re-adding a name keeps the key order. */
  lemma {:induction false} PutKeys(ms: seq<Member>, key: string, v: Node)
    ensures Keys(Put(ms, key, v)) == if Has(ms, key) then Keys(ms) else Keys(ms) + [key]
  {
    if ms != [] {
      assert ms == [ms[0]] + ms[1..];
      KeysCons(ms[0], ms[1..]);
      if ms[0].0 == key {
        KeysCons((key, v), ms[1..]);
      } else {
        PutKeys(ms[1..], key, v);
        KeysCons(ms[0], Put(ms[1..], key, v));
        assert Keys(ms[1..]) + [key] == Keys(ms[1..] + [(key, v)]) by {
          KeysSnoc(ms[1..], (key, v));
        }
      }
    }
  }

  lemma KeysCons(m: Member, rest: seq<Member>)
    ensures Keys([m] + rest) == [m.0] + Keys(rest)
  {
  }

  lemma KeysSnoc(rest: seq<Member>, m: Member)
    ensures Keys(rest + [m]) == Keys(rest) + [m.0]
  {
  }

  lemma PutUnique(ms: seq<Member>, key: string, v: Node)
    requires UniqueKeys(ms)
    ensures UniqueKeys(Put(ms, key, v))
  {
    PutKeys(ms, key, v);
  }
}

=== FILE: reflection.dfy ===
/**
 * A declared field of a Java class as java.lang.reflect.Field reports it,
 * together with the two annotations the codec reads (@Expose and @Comment).
 * This table stands in for run-time reflection: one entry per declared field,
 * in declaration order.
 */
module Reflection {
  import opened Wrappers

  datatype Field = Field(
    name: string,
    typeName: string,          // the declared (generic) type handed to Gson
    synthetic: bool,
    isStatic: bool,
    isTransient: bool,
    exposed: bool,             // carries @Expose
    comment: Option<string>)   // the text of @Comment, when the annotation is present

  /** The fields one class declares never share a name. */
  predicate DistinctNames(fields: seq<Field>)
  {
    forall i, j :: 0 <= i < j < |fields| ==> fields[i].name != fields[j].name
  }
}

=== FILE: wrappers.dfy ===
/** Option and Result, the shapes Java expresses with null returns and exceptions. */
module Wrappers {

  datatype Option<+T> = None | Some(value: T)

  datatype Result<+T, +E> = Success(value: T) | Failure(error: E)
}
